=== FILE: README.md ===
# Arduino task scheduler: readiness and dispatch

This project models the core of a small cooperative task scheduler for
Arduino and proves properties of that model. A fixed, priority-ordered array
holds the tasks. On each pass of its endless loop the scheduler reads the
millisecond clock once, asks each task in order whether it `canRun(now)`,
calls `run(now)` on the first task that answers true, and ends the pass.

There are two kinds of task:

- A **triggered task** is ready while its `runFlag` is set. `setRunnable` and
  `resetRunnable` set and clear the flag.
- A **timed task** has a target tick, `runTime`. Its readiness test allows for
  the 32-bit clock wrapping around. To do that it keeps the tick at which it
  last became ready (`lastRunTime`) and compares both the clock and the run
  time against it. When neither is below `lastRunTime`, the task is ready once
  the clock reaches `runTime`. The other cases behave differently, as the
  quirks below show.

An earlier variant of the library (`TaskSched`) used a plain `now >= runTime`
test. It is modelled as a reference predicate.

Files:

- `ticks.dfy` (module `Ticks`): the `uint32_t` tick as an integer subset type
  `0 ..< 2^32`, `MAX_TIME`, and wrapping addition and difference.
- `optional.dfy` (module `Optional`): an optional value, for "no task ran".
- `tasks.dfy` (module `Tasks`): the two task kinds, their mutators, and both
  `canRun` tests. Each operation returns the new task state instead of
  mutating an object.
- `scheduler.dfy` (module `Scheduling`): the `uint8_t` task count, the
  scheduler constructor and one pass of `runTasks`. The pass exists as a
  recursive function and as a loop written like the C++. The file also covers a finite sequence of passes and
  starvation.
- `legacy.dfy` (module `LegacyTasks`): the earlier readiness test, and where
  it agrees with the rollover-aware one.

Modelling choices:

- The clock is an input: one reading per pass, or a finite sequence of
  readings for several passes.
- The application's `run` bodies are one abstract `Action`. It maps a task
  index, the task's state and the clock reading to the task's new state.
- Each pass records a log of the `canRun` and `run` calls it makes, with the
  index and the clock reading of each call. This lets the contracts state
  which tasks were queried and run, and with which reading.
- No constructor initialises `runFlag` or `lastRunTime`. Their initial values
  are arbitrary inputs, so every property holds for every initial value.
- The timed task keeps a "both rolled over" quirk. When both the clock and the
  run time are numerically below `lastRunTime`, the task is ready even while
  the clock is still below the run time. This happens because the failed first
  test falls through to the "run time rolled over" test. The model keeps this
  behaviour. `Tasks.BothRolledOver` and `Tasks.BothRolledOverFiresEarly` state
  it.
- The timed task also stalls after a late run. A periodic task reschedules
  itself from inside `run` with `incRunTime(period)`. Suppose it ran so late
  that the new run time is already behind the clock. The new `lastRunTime` is
  that clock reading, so the new run time counts as rolled over. The task is
  then not ready at any reading until the clock wraps, at most about 49.7 days
  later. Right after the wrap, at reading 0, both the clock and the run time
  count as rolled over, so the task is ready again even if its run time has
  not been reached. For example: run time 100, last run 0, clock 250, period
  100. The model keeps this behaviour, and `Tasks.LateRunStalls` states it.
- The scheduler constructor accepts any task array and any `uint8_t` count,
  including zero. It validates nothing, and the model follows the code:
  `Scheduling.EmptySchedulerIdles`
  proves that such a scheduler does nothing on every pass.

## Model

| member | source | states |
|---|---|---|
| Ticks.WrapAdd | Arduino_Task_Scheduler/Task.h:97 | the `uint32_t` sum is the true sum reduced modulo 2^32, and it wrapped exactly when the result is below the first operand |
| Ticks.MaxTimeIsLargest | Arduino_Task_Scheduler/Task.h:16 | `MAX_TIME` is at least every tick, and one tick past it is tick 0 |
| Tasks.SetRunnable | Arduino_Task_Scheduler/Task.h:58 | after `setRunnable` the flag is set |
| Tasks.ResetRunnable | Arduino_Task_Scheduler/Task.h:63 | after `resetRunnable` the flag is clear |
| Tasks.TriggeredCanRun | Arduino_Task_Scheduler/Task.cpp:9-11 | a triggered task answers with its flag whatever the clock reads, and the query changes nothing |
| Tasks.ReadinessMirrorsLastFlagCall | Arduino_Task_Scheduler/Task.h:58-66 | after any sequence of `setRunnable`/`resetRunnable` calls, the task is ready exactly when the last call was `setRunnable`; with no calls it reports its initial flag |
| Tasks.NewTimedTask | Arduino_Task_Scheduler/Task.h:79 | the constructed task's `getRunTime` is the given tick, and `lastRunTime` keeps its uninitialised value |
| Tasks.SetRunTime | Arduino_Task_Scheduler/Task.h:91-103 | after `setRunTime(when)`, `getRunTime` returns `when`, and `lastRunTime` is unchanged |
| Tasks.IncRunTime | Arduino_Task_Scheduler/Task.h:97 | `incRunTime(inc)` makes the run time `(old + inc) mod 2^32`, which lies exactly `inc` ticks after the old one on the wrapping clock; `lastRunTime` is unchanged |
| Tasks.IncRunTimeComposes | Arduino_Task_Scheduler/Task.h:97 | two increments equal one increment by their wrapped sum |
| Tasks.IncRunTimeWraps | Arduino_Task_Scheduler/Task.h:97 | an increment past `MAX_TIME` wraps to a run time below the old one |
| Tasks.TimedCanRun | Arduino_Task_Scheduler/Task.cpp:14-57 | the four-way rollover test equals the closed form "if the run time is below `lastRunTime` then ready iff the clock is below `lastRunTime`, else ready iff the clock has reached the run time"; on true `lastRunTime` becomes the clock reading, on false it is unchanged; `runTime` is never changed |
| Tasks.NoRollover | Arduino_Task_Scheduler/Task.cpp:23-37 | with neither the clock nor the run time below `lastRunTime`, ready iff the clock has reached the run time |
| Tasks.BothRolledOver | Arduino_Task_Scheduler/Task.cpp:31-50 | with both below `lastRunTime`, always ready, even before the run time |
| Tasks.OnlyRunTimeRolledOver | Arduino_Task_Scheduler/Task.cpp:42-45 | with only the run time below `lastRunTime`, never ready |
| Tasks.OnlyNowRolledOver | Arduino_Task_Scheduler/Task.cpp:53-56 | with only the clock below `lastRunTime`, never ready |
| Tasks.NeverEarlyUnlessBothRolledOver | Arduino_Task_Scheduler/Task.cpp:23-56 | outside the "both rolled over" case, a ready task has, measured forward from `lastRunTime`, reached its run time |
| Tasks.BothRolledOverFiresEarly | Arduino_Task_Scheduler/Task.cpp:31-50 | last run `0xFFFFFFF0`, run time 5, clock 2: ready and `lastRunTime` becomes 2, although the run time is 3 ticks away |
| Tasks.LateRunStalls | Arduino_Task_Scheduler/Task.cpp:23-56 | a task with no rollover that is ready at `now` and is then advanced by `incRunTime(inc)` to a run time still behind `now` is not ready at any reading from `now` up to `MAX_TIME`, and is ready again at reading 0 after the wrap |
| Tasks.OnlyNowRolledOverWaits | Arduino_Task_Scheduler/Task.cpp:53-56 | last run `0x10`, run time `0x20`, clock 5: not ready and unchanged, although more than the wait has elapsed |
| Tasks.CanRun | Arduino_Task_Scheduler/Task.cpp:9-57 | the virtual `canRun`: flag for triggered tasks, closed-form rollover test and `lastRunTime` bookkeeping for timed tasks; a false answer leaves every task unchanged |
| Scheduling.NewTaskScheduler | Arduino_Task_Scheduler/TaskScheduler.cpp:14-17 | the constructor stores the array and the `uint8_t` count as given, for every count including zero |
| Scheduling.Scan | Arduino_Task_Scheduler/TaskScheduler.cpp:23-30 | the task that runs is the lowest-index ready one; every task before it was queried with the same clock reading and was not ready; only the chosen task's state changes, to its `run` result; later tasks are neither queried nor changed; if none is ready, all were queried, nothing ran and nothing changed |
| Scheduling.Pass | Arduino_Task_Scheduler/TaskScheduler.cpp:21-30 | every call in a pass uses the one clock reading; at most one `run`, and only as the last call; entries past `numTasks` are untouched |
| Scheduling.ScanStep | Arduino_Task_Scheduler/TaskScheduler.cpp:24-29 | a ready task ends the scan after its query and run; a task that is not ready adds its query and the scan goes on with the next index |
| Scheduling.PassResumes | Arduino_Task_Scheduler/TaskScheduler.cpp:23-29 | a pass that has queried tasks `0 .. t-1` without a positive answer continues at task `t`: if it is ready, the pass ends running it, with its query and run as the last two calls; otherwise its query is logged and the pass continues at `t + 1` |
| Scheduling.RunPass | Arduino_Task_Scheduler/TaskScheduler.cpp:21-30 | the counting loop with `break` computes exactly the pass: same states, same chosen task, same calls |
| Scheduling.RunPasses | Arduino_Task_Scheduler/TaskScheduler.cpp:20-31 | over a finite sequence of clock readings, one pass per reading: every call of pass `m` uses reading `m`; pass `m` runs a task exactly when its last call is a `run`, of that task, which lies below `numTasks`; every earlier call of the pass is a `canRun` query |
| Scheduling.RunPassesStepwise | Arduino_Task_Scheduler/TaskScheduler.cpp:20-31 | pass `m` of the loop is one pass with reading `m`, started from the task states the first `m` passes left: same task run, same calls; the states it leaves are those the first `m + 1` passes leave, and with no reading yet the states are the initial ones (`RunPasses` base case) |
| Scheduling.Starvation | Arduino_Task_Scheduler/TaskScheduler.cpp:20-31 | if task 0 is ready at the start of every pass, there is one outcome per reading, every pass runs task 0, and no call of any pass concerns another task |
| Scheduling.StuckFlagStarves | Arduino_Task_Scheduler/TaskScheduler.cpp:20-31 | a triggered task 0 whose `run` leaves its flag set is ready on every pass |
| Scheduling.EmptySchedulerIdles | Arduino_Task_Scheduler/TaskScheduler.cpp:14-31 | a scheduler built with count zero makes no call and runs nothing in any pass, and leaves every task state as it was |
| LegacyTasks.LegacyMonotone | TaskSched/Task.cpp:14-16 | once the earlier test is ready, it stays ready at every later clock reading |
| LegacyTasks.WrapAwareAgreesWithLegacy | TaskSched/Task.cpp:9-16 | when the run time is not below `lastRunTime`, the rollover-aware test and the earlier test give the same answer; triggered tasks always agree |
| LegacyTasks.AgreementAfterTargetRollover | TaskSched/Task.cpp:14-16 | when the run time is below `lastRunTime`, the two tests agree exactly while the clock lies between the run time and `lastRunTime` |
| LegacyTasks.PassAgreesWithLegacy | TaskSched/Task.cpp:14-16 | when no task's run time is below its `lastRunTime`, a pass runs the same task that the earlier test would choose |

## Left out

- The clock `millis()` and the Arduino headers
  (`Arduino_Task_Scheduler/TaskScheduler.cpp:6-10, 21`) are left out. Each
  pass takes its clock reading as an input.
- The endless `while (1)` loop is modelled as a finite sequence of passes.
  Non-termination is not modelled.
- The concrete `run` bodies belong to the application and are not modelled.
  They are one abstract `Action` parameter.
- Scheduling.Scan: `run` may change only the state of the task it runs, and the
  array holds distinct tasks. In the C++, `run` works on `Task*` pointers. It
  may change another task, for example by calling `setRunnable` on a triggered
  task, and the array may hold the same task twice. "Only the chosen task's
  state changes" holds only under this restriction.
- Scheduling.Pass: "entries past `numTasks` are untouched" rests on the same
  restriction on `run`.
- Concurrent writes of `runFlag` from interrupt context are not modelled.
  `setRunnable` and `resetRunnable` are sequential state updates.
- Virtual dispatch and subclasses that override `canRun` are left out. The
  task kinds form a closed datatype of the two library classes.
- `GetRunTime` is a pure read with no contract of its own. The contracts of
  `Tasks.NewTimedTask` and `Tasks.SetRunTime` state what it returns.
- A caller may pass a count larger than the array. The C++ would then read
  past the end of the array, which is undefined behaviour. `Scheduling.Pass`
  and the members built on it therefore require the count to be at most the
  array length.
- A caller may pass a count that does not fit in `uint8_t`. C++ truncates it
  at the call. The model's count is already a `uint8_t` value, so this
  truncation is not modelled.

=== FILE: legacy.dfy ===
/** The earlier readiness test of the `TaskSched` variant, which compares
    ticks without regard to wrap-around and keeps no `lastRunTime`, used as a
    reference for the rollover-aware test of `Tasks`. */
module LegacyTasks {
  import opened Ticks
  import opened Optional
  import opened Tasks
  import opened Scheduling

  /** The earlier `canRun`: a triggered task reports its flag, a timed task is
      ready once the clock has reached its run time. It changes no state,
      which the bare `bool` result records. */
  predicate LegacyReady(t: Task, now: Tick)
  {
    match t
    case Triggered(tr) => tr.runFlag
    case Timed(tm) => now >= tm.runTime
  }

  /** Once ready, the earlier test stays ready as the clock advances
      (until the clock wraps). */
  lemma LegacyMonotone(t: Task, now: Tick, later: Tick)
    requires LegacyReady(t, now) && now <= later
    ensures LegacyReady(t, later)
  {
  }

  /** The run time has not rolled over relative to the last run tick. */
  predicate NoTargetRollover(t: Task)
  {
    t.Timed? ==> t.timed.runTime >= t.timed.lastRunTime
  }

  /** Where the run time has not rolled over, the two tests give the same
      answer at every clock reading; triggered tasks always agree. */
  lemma WrapAwareAgreesWithLegacy(t: Task, now: Tick)
    requires NoTargetRollover(t)
    ensures Ready(t, now) == LegacyReady(t, now)
  {
  }

  /** Where the run time has rolled over, the two tests agree exactly while
      the clock lies between the run time and the last run tick. */
  lemma AgreementAfterTargetRollover(t: TimedTask, now: Tick)
    requires t.runTime < t.lastRunTime
    ensures Ready(Timed(t), now) == LegacyReady(Timed(t), now)
            <==> t.runTime <= now < t.lastRunTime
  {
  }

  /** The task a pass would pick with the earlier test: the first ready one
      from index `i` on, below `n`. */
  function LegacyFirstReady(tasks: seq<Task>, n: nat, now: Tick, i: nat): (r: Option<nat>)
    requires i <= n <= |tasks|
    decreases n - i
  {
    if i == n then None
    else if LegacyReady(tasks[i], now) then Some(i)
    else LegacyFirstReady(tasks, n, now, i + 1)
  }

  /** When no timed task's run time has rolled over, a pass runs the same
      task the earlier test would pick. */
  lemma {:induction false} PassAgreesWithLegacy(tasks: seq<Task>, n: nat, now: Tick, run: Action, i: nat)
    requires i <= n <= |tasks|
    requires forall j :: i <= j < n ==> NoTargetRollover(tasks[j])
    ensures Scan(tasks, n, now, run, i).ran == LegacyFirstReady(tasks, n, now, i)
    decreases n - i
  {
    if i < n {
      WrapAwareAgreesWithLegacy(tasks[i], now);
      ScanStep(tasks, n, now, run, i);
      if !Ready(tasks[i], now) {
        PassAgreesWithLegacy(tasks, n, now, run, i + 1);
      }
    }
  }
}

=== FILE: optional.dfy ===
/** An optional value, for "no task ran in this pass". */
module Optional {

  datatype Option<+T> = None | Some(value: T)
}

=== FILE: scheduler.dfy ===
/** The priority scheduler: a fixed array of tasks, position 0 first. Each
    pass of its endless loop reads the clock once, asks the tasks in order
    whether they can run, runs the first that can and ends the pass.

    The clock is a parameter of each pass (a sequence of readings for several
    passes), and the tasks' application-defined `run` bodies are one
    abstract `Action`. Every `canRun` and `run` call a pass makes is recorded
    in a call log, so that what the loop asks of which task is part of the
    result. */
module Scheduling {
  import opened Ticks
  import opened Optional
  import opened Tasks

  /** What `run(now)` does to the task at a given index: its new state. */
  type Action = (nat, Task, Tick) -> Task

  /** A virtual call the loop makes: `canRun(at)` or `run(at)` on the task at `index`. */
  datatype Call = Query(index: nat, at: Tick) | Invoke(index: nat, at: Tick)

  /** The result of one pass: the task states afterwards, the index of the
      task that ran (if any) and the calls made, in order. */
  datatype PassOutcome = PassOutcome(tasks: seq<Task>, ran: Option<nat>, calls: seq<Call>)

  /** A `uint8_t` count. */
  type Byte = x: int | 0 <= x < 0x100

  /** The scheduler: the task array and the count it was given. */
  datatype TaskScheduler = TaskScheduler(tasks: seq<Task>, numTasks: Byte)

  /** The constructor stores the array and the `uint8_t` count as given; it
      checks neither, so even a count of zero yields a scheduler. */
  function NewTaskScheduler(tasks: seq<Task>, numTasks: Byte): (s: TaskScheduler)
    ensures s.tasks == tasks && s.numTasks == numTasks
  {
    TaskScheduler(tasks, numTasks)
  }

  /** The scan of one pass from index `i` on, up to (not including) `n`:
      query each task with the same clock reading; the first that answers
      true is run and the scan stops. */
  function Scan(tasks: seq<Task>, n: nat, now: Tick, run: Action, i: nat): (r: PassOutcome)
    requires i <= n <= |tasks|
    ensures |r.tasks| == |tasks|
    ensures r.ran.None? ==>
              // nothing was ready, nothing ran and nothing changed
              && (forall j :: i <= j < n ==> !Ready(tasks[j], now))
              && r.tasks == tasks
              && |r.calls| == n - i
              && (forall m :: 0 <= m < |r.calls| ==> r.calls[m] == Query(i + m, now))
    ensures r.ran.Some? ==>
              var k := r.ran.value;
              // the first ready task ran; only its state changed
              && i <= k < n
              && Ready(tasks[k], now)
              && (forall j :: i <= j < k ==> !Ready(tasks[j], now))
              && r.tasks == tasks[k := run(k, CanRun(tasks[k], now).state, now)]
              // the tasks up to it were queried, then it was run, then nothing else
              && |r.calls| == k - i + 2
              && (forall m :: 0 <= m <= k - i ==> r.calls[m] == Query(i + m, now))
              && r.calls[k - i + 1] == Invoke(k, now)
    decreases n - i
  {
    if i == n then
      PassOutcome(tasks, None, [])
    else
      var p := CanRun(tasks[i], now);
      if p.ready then
        PassOutcome(tasks[i := run(i, p.state, now)], Some(i), [Query(i, now), Invoke(i, now)])
      else
        // a negative answer left the queried task as it was
        assert tasks[i := p.state] == tasks;
        var rest := Scan(tasks[i := p.state], n, now, run, i + 1);
        PassOutcome(rest.tasks, rest.ran, [Query(i, now)] + rest.calls)
  }

  /** One pass of `runTasks` with the clock reading `now`. */
  function Pass(s: TaskScheduler, now: Tick, run: Action): (r: PassOutcome)
    requires s.numTasks <= |s.tasks|
    ensures |r.tasks| == |s.tasks|
    // every call of the pass uses the one clock reading
    ensures forall m :: 0 <= m < |r.calls| ==> r.calls[m].at == now
    // at most one `run`, and only as the last call
    ensures forall m :: 0 <= m < |r.calls| - 1 ==> r.calls[m].Query?
    ensures r.ran.Some? <==> |r.calls| > 0 && r.calls[|r.calls| - 1].Invoke?
    // entries past the count are never touched
    ensures forall j :: s.numTasks <= j < |s.tasks| ==> r.tasks[j] == s.tasks[j]
  {
    Scan(s.tasks, s.numTasks, now, run, 0)
  }

  /** `o` with `earlier` calls made before its own. */
  function AfterCalls(earlier: seq<Call>, o: PassOutcome): (r: PassOutcome)
  {
    o.(calls := earlier + o.calls)
  }

  /** One step of the scan: a ready task ends it, a task that is not ready
      adds its query and hands over to the next index. */
  lemma ScanStep(tasks: seq<Task>, n: nat, now: Tick, run: Action, i: nat)
    requires i < n <= |tasks|
    ensures Ready(tasks[i], now) ==>
              Scan(tasks, n, now, run, i)
              == PassOutcome(tasks[i := run(i, CanRun(tasks[i], now).state, now)], Some(i),
                             [Query(i, now), Invoke(i, now)])
    ensures !Ready(tasks[i], now) ==>
              Scan(tasks, n, now, run, i) == AfterCalls([Query(i, now)], Scan(tasks, n, now, run, i + 1))
  {
    if !Ready(tasks[i], now) {
      assert tasks[i := CanRun(tasks[i], now).state] == tasks;
    }
  }

  /** Resuming a pass at index `t`, after the calls `calls`: a ready task
      ends the pass, a task that is not ready adds its query. */
  lemma PassResumes(s: TaskScheduler, now: Tick, run: Action, t: nat, calls: seq<Call>)
    requires t < s.numTasks <= |s.tasks|
    requires Pass(s, now, run) == AfterCalls(calls, Scan(s.tasks, s.numTasks, now, run, t))
    ensures Ready(s.tasks[t], now) ==>
              Pass(s, now, run)
              == PassOutcome(s.tasks[t := run(t, CanRun(s.tasks[t], now).state, now)], Some(t),
                             calls + [Query(t, now), Invoke(t, now)])
    ensures !Ready(s.tasks[t], now) ==>
              Pass(s, now, run) == AfterCalls(calls + [Query(t, now)], Scan(s.tasks, s.numTasks, now, run, t + 1))
  {
    ScanStep(s.tasks, s.numTasks, now, run, t);
    var rest := Scan(s.tasks, s.numTasks, now, run, t + 1);
    assert calls + ([Query(t, now)] + rest.calls) == (calls + [Query(t, now)]) + rest.calls;
  }

  /** The body of the `runTasks` loop as the C++ writes it: a counting loop
      that breaks after the first task that ran. */
  method RunPass(s: TaskScheduler, now: Tick, run: Action)
    returns (tasks: seq<Task>, ran: Option<nat>, calls: seq<Call>)
    requires s.numTasks <= |s.tasks|
    ensures PassOutcome(tasks, ran, calls) == Pass(s, now, run)
  {
    ran, calls := None, [];
    var t := 0;
    while t < s.numTasks
      invariant 0 <= t <= s.numTasks
      invariant Pass(s, now, run) == AfterCalls(calls, Scan(s.tasks, s.numTasks, now, run, t))
    {
      PassResumes(s, now, run, t, calls);
      var p := CanRun(s.tasks[t], now);
      if p.ready {
        tasks := s.tasks[t := run(t, p.state, now)];
        ran := Some(t);
        calls := calls + [Query(t, now), Invoke(t, now)];
        return;
      }
      calls := calls + [Query(t, now)];
      t := t + 1;
    }
    tasks := s.tasks;
  }

  /** The call log of one pass fits a single clock reading `now`: every call
      uses it, and only the last call may be a `run`, which happens exactly
      when the pass reports a task below `n` as run, and is of that task. */
  predicate PassLogFits(calls: seq<Call>, ran: Option<nat>, now: Tick, n: nat)
  {
    && (forall j :: 0 <= j < |calls| ==>
          calls[j].at == now && (calls[j].Invoke? <==> ran.Some? && j == |calls| - 1))
    && (ran.Some? ==> ran.value < n && |calls| > 0 && calls[|calls| - 1] == Invoke(ran.value, now))
  }

  /** Every pass leaves a log that fits its reading. */
  lemma PassFitsReading(s: TaskScheduler, now: Tick, run: Action)
    requires s.numTasks <= |s.tasks|
    ensures PassLogFits(Pass(s, now, run).calls, Pass(s, now, run).ran, now, s.numTasks)
  {
  }

  /** The result of several passes: final task states, and for each pass the
      task that ran in it and the calls it made. */
  datatype History = History(tasks: seq<Task>, ran: seq<Option<nat>>, calls: seq<seq<Call>>)

  /** Consecutive passes, one per clock reading in `ticks`, each starting from
      the states the previous one left. */
  function RunPasses(s: TaskScheduler, ticks: seq<Tick>, run: Action): (h: History)
    requires s.numTasks <= |s.tasks|
    ensures |h.tasks| == |s.tasks|
    ensures |h.ran| == |ticks| && |h.calls| == |ticks|
    ensures |ticks| == 0 ==> h.tasks == s.tasks
    // pass m reads the clock once, as `ticks[m]`, and runs at most one task
    ensures forall m :: 0 <= m < |ticks| ==> PassLogFits(h.calls[m], h.ran[m], ticks[m], s.numTasks)
    decreases |ticks|
  {
    if |ticks| == 0 then
      History(s.tasks, [], [])
    else
      var p := Pass(s, ticks[0], run);
      PassFitsReading(s, ticks[0], run);
      var rest := RunPasses(s.(tasks := p.tasks), ticks[1..], run);
      History(rest.tasks, [p.ran] + rest.ran, [p.calls] + rest.calls)
  }

  /** Pass `m` of a run is exactly one `Pass`, with reading `ticks[m]`, on the
      states the first `m` passes left, and the states it leaves are the ones
      the first `m + 1` passes leave. */
  lemma {:induction false} RunPassesStepwise(s: TaskScheduler, ticks: seq<Tick>, run: Action, m: nat)
    requires s.numTasks <= |s.tasks|
    requires m < |ticks|
    ensures var before := RunPasses(s, ticks[..m], run).tasks;
            var p := Pass(s.(tasks := before), ticks[m], run);
            var h := RunPasses(s, ticks, run);
            && h.ran[m] == p.ran && h.calls[m] == p.calls
            && RunPasses(s, ticks[..m + 1], run).tasks == p.tasks
    decreases m
  {
    if m == 0 {
      assert ticks[..0] == [];
      assert ticks[..1][1..] == [];
    } else {
      var s1 := s.(tasks := Pass(s, ticks[0], run).tasks);
      RunPassesStepwise(s1, ticks[1..], run, m - 1);
      assert ticks[..m][0] == ticks[0];
      assert ticks[..m][1..] == ticks[1..][..m - 1];
      assert ticks[..m + 1][0] == ticks[0];
      assert ticks[..m + 1][1..] == ticks[1..][..m];
      assert ticks[1..][m - 1] == ticks[m];
    }
  }

  /** Task 0 answers true at the start of every pass. */
  ghost predicate FirstAlwaysReady(s: TaskScheduler, ticks: seq<Tick>, run: Action)
    requires s.numTasks <= |s.tasks|
    decreases |ticks|
  {
    || |ticks| == 0
    || (&& 0 < s.numTasks
        && Ready(s.tasks[0], ticks[0])
        && FirstAlwaysReady(s.(tasks := Pass(s, ticks[0], run).tasks), ticks[1..], run))
  }

  /** In every pass of `h`, task 0 ran and no other task was even queried. */
  predicate OnlyFirstTaskServed(h: History)
  {
    && (forall m :: 0 <= m < |h.ran| ==> h.ran[m] == Some(0))
    && (forall m, c :: 0 <= m < |h.calls| && c in h.calls[m] ==> c.index == 0)
  }

  /** Prefixing one pass that served only task 0 keeps the property. */
  lemma OnlyFirstTaskServedCons(ran: Option<nat>, calls: seq<Call>, rest: History, tasks: seq<Task>)
    requires ran == Some(0) && (forall c :: c in calls ==> c.index == 0)
    requires OnlyFirstTaskServed(rest)
    ensures OnlyFirstTaskServed(History(tasks, [ran] + rest.ran, [calls] + rest.calls))
  {
    var h := History(tasks, [ran] + rest.ran, [calls] + rest.calls);
    forall m | 0 < m < |h.calls|
      ensures h.calls[m] == rest.calls[m - 1]
    {
    }
    forall m | 0 < m < |h.ran|
      ensures h.ran[m] == rest.ran[m - 1]
    {
    }
  }

  /** Starvation: while task 0 is ready on every pass, it is the only task that
      runs and the only task that is even queried. */
  lemma {:induction false} Starvation(s: TaskScheduler, ticks: seq<Tick>, run: Action)
    requires s.numTasks <= |s.tasks|
    requires FirstAlwaysReady(s, ticks, run)
    ensures |RunPasses(s, ticks, run).ran| == |ticks|
    ensures OnlyFirstTaskServed(RunPasses(s, ticks, run))
    decreases |ticks|
  {
    if |ticks| > 0 {
      var p := Pass(s, ticks[0], run);
      ScanStep(s.tasks, s.numTasks, ticks[0], run, 0);
      assert p.ran == Some(0) && p.calls == [Query(0, ticks[0]), Invoke(0, ticks[0])];
      var rest := RunPasses(s.(tasks := p.tasks), ticks[1..], run);
      Starvation(s.(tasks := p.tasks), ticks[1..], run);
      OnlyFirstTaskServedCons(p.ran, p.calls, rest, rest.tasks);
    }
  }

  /** A triggered task in position 0 whose `run` leaves its flag set is ready
      on every pass, so it starves every other task. */
  lemma {:induction false} StuckFlagStarves(s: TaskScheduler, ticks: seq<Tick>, run: Action)
    requires 0 < s.numTasks <= |s.tasks|
    requires s.tasks[0] == Triggered(TriggeredTask(true))
    requires forall now: Tick :: run(0, Triggered(TriggeredTask(true)), now) == Triggered(TriggeredTask(true))
    ensures FirstAlwaysReady(s, ticks, run)
    decreases |ticks|
  {
    if |ticks| > 0 {
      var p := Pass(s, ticks[0], run);
      assert p.tasks == s.tasks;
      assert s.(tasks := p.tasks) == s;
      StuckFlagStarves(s, ticks[1..], run);
    }
  }

  /** A scheduler built with a count of zero queries nothing and runs nothing,
      pass after pass. */
  lemma {:induction false} EmptySchedulerIdles(tasks: seq<Task>, ticks: seq<Tick>, run: Action)
    ensures var h := RunPasses(NewTaskScheduler(tasks, 0), ticks, run);
            && h.tasks == tasks
            && (forall m :: 0 <= m < |h.calls| ==> h.calls[m] == [])
            && (forall m :: 0 <= m < |h.ran| ==> h.ran[m] == None)
    decreases |ticks|
  {
    if |ticks| > 0 {
      EmptySchedulerIdles(tasks, ticks[1..], run);
    }
  }
}

=== FILE: tasks.dfy ===
/** The task classes of the scheduler: a triggered task, ready while its flag
    is set, and a timed task, whose readiness compares the clock and its run
    time against the tick at which it last became ready, to allow for the
    32-bit clock wrapping around.

    The C++ classes mutate themselves; here each operation returns the new
    state instead. Fields no constructor initialises (`runFlag`,
    `lastRunTime`) are ordinary parameters, so every initial value is covered. */
module Tasks {
  import opened Ticks

  /** A task triggered by an external event. */
  datatype TriggeredTask = TriggeredTask(runFlag: bool)

  /** A periodically executed task. `runTime` is the tick at which it may next
      run; `lastRunTime` is the tick observed when it last became ready. */
  datatype TimedTask = TimedTask(runTime: Tick, lastRunTime: Tick)

  /** The closed set of task kinds the scheduler dispatches over. */
  datatype Task = Triggered(triggered: TriggeredTask) | Timed(timed: TimedTask)

  /** The answer of a readiness query, together with the task's state after it. */
  datatype Polled<T> = Polled(ready: bool, state: T)

  // ---------------------------------------------------------------------
  // Triggered task
  // ---------------------------------------------------------------------

  /** Mark the task as runnable. */
  function SetRunnable(t: TriggeredTask): (r: TriggeredTask)
    ensures r.runFlag
  {
    t.(runFlag := true)
  }

  /** Mark the task as non-runnable. */
  function ResetRunnable(t: TriggeredTask): (r: TriggeredTask)
    ensures !r.runFlag
  {
    t.(runFlag := false)
  }

  /** Readiness of a triggered task: the flag, whatever the clock says. */
  function TriggeredCanRun(t: TriggeredTask, now: Tick): (p: Polled<TriggeredTask>)
    ensures p.state == t
    ensures p.ready == t.runFlag
  {
    Polled(t.runFlag, t)
  }

  /** A call of `setRunnable` or `resetRunnable` made by an event producer. */
  datatype FlagCall = SetRunnableCall | ResetRunnableCall

  function ApplyFlagCall(t: TriggeredTask, c: FlagCall): (r: TriggeredTask)
  {
    match c
    case SetRunnableCall => SetRunnable(t)
    case ResetRunnableCall => ResetRunnable(t)
  }

  /** The task after a sequence of flag calls, applied in order. */
  function ApplyFlagCalls(t: TriggeredTask, calls: seq<FlagCall>): (r: TriggeredTask)
    decreases |calls|
  {
    if |calls| == 0 then t else ApplyFlagCalls(ApplyFlagCall(t, calls[0]), calls[1..])
  }

  /** A triggered task is ready exactly when the last flag call was
      `setRunnable`; with no call yet, it reports its initial flag. */
  lemma {:induction false} ReadinessMirrorsLastFlagCall(t: TriggeredTask, calls: seq<FlagCall>, now: Tick)
    ensures TriggeredCanRun(ApplyFlagCalls(t, calls), now).ready
            == if |calls| == 0 then t.runFlag else calls[|calls| - 1] == SetRunnableCall
    decreases |calls|
  {
    if |calls| > 0 {
      var rest := calls[1..];
      ReadinessMirrorsLastFlagCall(ApplyFlagCall(t, calls[0]), rest, now);
      if |rest| > 0 {
        assert rest[|rest| - 1] == calls[|calls| - 1];
      }
    }
  }

  // ---------------------------------------------------------------------
  // Timed task
  // ---------------------------------------------------------------------

  /** The `TimedTask(when)` constructor. It sets only `runTime`; the
      uninitialised `lastRunTime` is whatever the storage held. */
  function NewTimedTask(when: Tick, initialLastRunTime: Tick): (t: TimedTask)
    ensures GetRunTime(t) == when
    ensures t.lastRunTime == initialLastRunTime
  {
    TimedTask(when, initialLastRunTime)
  }

  /** Read the tick at which the task is next due. */
  function GetRunTime(t: TimedTask): (r: Tick)
  {
    t.runTime
  }

  /** Set the tick at which the task can next run. */
  function SetRunTime(t: TimedTask, when: Tick): (r: TimedTask)
    ensures GetRunTime(r) == when
    ensures r.lastRunTime == t.lastRunTime
  {
    t.(runTime := when)
  }

  /** Advance the run time by `inc` ticks, in unsigned 32-bit arithmetic. */
  function IncRunTime(t: TimedTask, inc: Tick): (r: TimedTask)
    ensures GetRunTime(r) == (GetRunTime(t) + inc) % TICK_MODULUS
    ensures Elapsed(GetRunTime(t), GetRunTime(r)) == inc
    ensures r.lastRunTime == t.lastRunTime
  {
    t.(runTime := WrapAdd(t.runTime, inc))
  }

  /** Two increments are one increment by their wrapped sum. */
  lemma IncRunTimeComposes(t: TimedTask, a: Tick, b: Tick)
    ensures IncRunTime(IncRunTime(t, a), b) == IncRunTime(t, WrapAdd(a, b))
  {
  }

  /** Advancing past MAX_TIME wraps round to small ticks. */
  lemma IncRunTimeWraps(t: TimedTask, inc: Tick)
    requires t.runTime + inc > MAX_TIME
    ensures GetRunTime(IncRunTime(t, inc)) == t.runTime + inc - TICK_MODULUS
    ensures GetRunTime(IncRunTime(t, inc)) < GetRunTime(t)
  {
  }

  /** Independent statement of the readiness rule: when the run time is
      numerically below the last run tick (it wrapped), the task is ready
      while the clock is also below that tick (it wrapped too); otherwise it
      is ready once the clock has reached the run time. */
  predicate ClosedFormReady(t: TimedTask, now: Tick)
  {
    if t.runTime < t.lastRunTime then now < t.lastRunTime else now >= t.runTime
  }

  /** The rollover-aware readiness test, branch for branch: the first test
      covers "nothing rolled over" and "both rolled over" but, when it fails,
      falls through to the "run time rolled over" test; only an answer of
      true records the clock in `lastRunTime`. */
  function TimedCanRun(t: TimedTask, now: Tick): (p: Polled<TimedTask>)
    ensures p.ready == ClosedFormReady(t, now)
    ensures p.state.runTime == t.runTime
    ensures p.state.lastRunTime == if p.ready then now else t.lastRunTime
  {
    var millisRollOver := now < t.lastRunTime;
    var runTimeRollover := t.runTime < t.lastRunTime;
    if ((!millisRollOver && !runTimeRollover) || (millisRollOver && runTimeRollover))
       && now >= t.runTime then
      Polled(true, t.(lastRunTime := now))
    else if runTimeRollover then
      if now > t.runTime then Polled(false, t) else Polled(true, t.(lastRunTime := now))
    else
      Polled(false, t)
  }

  /** Nothing rolled over: ready exactly when the clock has reached the run time. */
  lemma NoRollover(t: TimedTask, now: Tick)
    requires now >= t.lastRunTime && t.runTime >= t.lastRunTime
    ensures TimedCanRun(t, now).ready <==> now >= t.runTime
  {
  }

  /** Both rolled over: always ready, even while the clock is still below the
      run time, because the failed first test falls through to the second. */
  lemma BothRolledOver(t: TimedTask, now: Tick)
    requires now < t.lastRunTime && t.runTime < t.lastRunTime
    ensures TimedCanRun(t, now).ready
  {
  }

  /** Only the run time rolled over: never ready, the clock must wrap first. */
  lemma OnlyRunTimeRolledOver(t: TimedTask, now: Tick)
    requires t.runTime < t.lastRunTime <= now
    ensures !TimedCanRun(t, now).ready
  {
  }

  /** Only the clock rolled over: never ready. */
  lemma OnlyNowRolledOver(t: TimedTask, now: Tick)
    requires now < t.lastRunTime <= t.runTime
    ensures !TimedCanRun(t, now).ready
  {
  }

  /** Measured forward from `lastRunTime`, the task never becomes ready before
      its run time, except in the "both rolled over" case. */
  lemma NeverEarlyUnlessBothRolledOver(t: TimedTask, now: Tick)
    requires TimedCanRun(t, now).ready
    requires !(now < t.lastRunTime && t.runTime < t.lastRunTime)
    ensures Elapsed(t.lastRunTime, t.runTime) <= Elapsed(t.lastRunTime, now)
  {
  }

  /** The "both rolled over" quirk makes a task ready before its run time:
      with the last run at 0xFFFFFFF0 and the run time at 5, a clock reading
      of 2 is ready, 3 ticks early, and records 2 as the last run tick. */
  lemma BothRolledOverFiresEarly()
    ensures var t := TimedTask(5, 0xFFFF_FFF0);
            && TimedCanRun(t, 2) == Polled(true, TimedTask(5, 2))
            && Elapsed(t.lastRunTime, 2) < Elapsed(t.lastRunTime, t.runTime)
  {
  }

  /** A task that runs late and then reschedules itself by its period stalls:
      once ready at `now`, with the new run time `runTime + inc` already
      behind `now`, the rescheduled run time counts as rolled over, so the
      task is not ready at any later reading until the clock wraps; right
      after the wrap, at reading 0, both count as rolled over and it is
      ready again, even when its run time lies ahead. */
  lemma LateRunStalls(t: TimedTask, now: Tick, inc: Tick, later: Tick)
    requires t.lastRunTime <= t.runTime
    requires t.runTime + inc < now <= later
    ensures TimedCanRun(t, now).ready
    ensures !TimedCanRun(IncRunTime(TimedCanRun(t, now).state, inc), later).ready
    ensures TimedCanRun(IncRunTime(TimedCanRun(t, now).state, inc), 0).ready
  {
  }

  /** Only the clock rolled over: the task stays not ready although, measured
      forward from the last run at 0x10, far more ticks than the 0x10 ticks to
      the run time 0x20 have passed by the clock reading 5. */
  lemma OnlyNowRolledOverWaits()
    ensures var t := TimedTask(0x20, 0x10);
            && TimedCanRun(t, 5) == Polled(false, t)
            && Elapsed(t.lastRunTime, t.runTime) < Elapsed(t.lastRunTime, 5)
  {
  }

  // ---------------------------------------------------------------------
  // Dispatch over the task kinds (the virtual `canRun`)
  // ---------------------------------------------------------------------

  /** `canRun(now)` on any task: the answer and the task's state afterwards. */
  function CanRun(t: Task, now: Tick): (p: Polled<Task>)
    ensures t.Triggered? ==> p.state == t && p.ready == t.triggered.runFlag
    ensures t.Timed? ==>
              && p.state.Timed?
              && p.ready == ClosedFormReady(t.timed, now)
              && p.state.timed.runTime == t.timed.runTime
              && p.state.timed.lastRunTime == if p.ready then now else t.timed.lastRunTime
    // a negative answer leaves every task unchanged
    ensures !p.ready ==> p.state == t
  {
    match t
    case Triggered(tr) =>
      var q := TriggeredCanRun(tr, now);
      Polled(q.ready, Triggered(q.state))
    case Timed(tm) =>
      var q := TimedCanRun(tm, now);
      Polled(q.ready, Timed(q.state))
  }

  /** Shorthand for the answer of `canRun`. */
  predicate Ready(t: Task, now: Tick)
  {
    CanRun(t, now).ready
  }
}

=== FILE: ticks.dfy ===
/** Millisecond ticks of the Arduino clock: unsigned 32-bit values that wrap
    around to zero after MAX_TIME (about 49.7 days). */
module Ticks {

  /** Number of distinct tick values, 2^32. */
  const TICK_MODULUS: int := 0x1_0000_0000

  /** A `uint32_t` clock reading or run time. */
  type Tick = x: int | 0 <= x < TICK_MODULUS

  /** The largest representable tick, `UINT32_MAX`. */
  const MAX_TIME: Tick := TICK_MODULUS - 1

  /** Unsigned 32-bit addition, `a + b` as the C compiler computes it. */
  function WrapAdd(a: Tick, b: Tick): (r: Tick)
    ensures r == (a + b) % TICK_MODULUS
    // the sum wrapped exactly when the result is smaller than the first operand
    ensures r < a <==> a + b >= TICK_MODULUS
  {
    if a + b < TICK_MODULUS then a + b else a + b - TICK_MODULUS
  }

  /** Unsigned 32-bit difference `to - from`: the ticks that pass going
      forward from `from` until the clock reads `to`. */
  function Elapsed(from: Tick, to: Tick): (d: Tick)
    ensures WrapAdd(from, d) == to
  {
    if from <= to then to - from else to - from + TICK_MODULUS
  }

  /** Advancing by an elapsed time and measuring it again gives it back, so
      `Elapsed` and `WrapAdd` are mutually inverse. */
  lemma ElapsedUndoesWrapAdd(from: Tick, d: Tick)
    ensures Elapsed(from, WrapAdd(from, d)) == d
  {
  }

  /** MAX_TIME is the largest tick, and one more tick wraps to zero. */
  lemma MaxTimeIsLargest(t: Tick)
    ensures t <= MAX_TIME
    ensures WrapAdd(MAX_TIME, 1) == 0
  {
  }
}
